=== FILE: README.md ===
# Script scheduler of ScriptHookVDotNet, modelled in Dafny

`GTA::Script` (source/core/Script.cpp) is the base class of every .NET script
the host loads into the game. Each script runs on a thread of its own. It is
kept in lock-step with the game's tick through two auto-reset events:

- the **wait-event**: the script sets it to say "my step is done";
- the **continue-event**: the script blocks on it until the domain grants the
  next step.

On each iteration, `Script::MainLoop`:

1. drains the script's keyboard-event queue in FIFO order, raising `KeyDown`
   or `KeyUp` for each event;
2. raises `Tick`;
3. calls `Wait(Interval)`.

`Wait` hands the step back to the domain at least once, and keeps doing so
until the clock has reached its deadline.

Faults are handled this way:

- A handler fault during the drain is reported as non-fatal, and the drain
  stops for that iteration.
- A Tick fault is reported as fatal; the script then calls `Abort` and leaves
  the loop.

The lazily built `View` (the script's menu viewport) subscribes its draw
handler to `Tick` and its input handler to `KeyUp`, once. The input handler
routes a released key to one of six menu operations.

The model replaces the things that cannot be stated as pure logic:

- **The script thread** is a trace of the actions it performs (`Events.Action`):
  - setting the wait-event and blocking on the continue-event;
  - raising `KeyDown`, `KeyUp` and `Tick`;
  - reporting a fault, fatal or not;
  - asking the domain to abort.
- **`DateTime::Now`** is an abstract clock. The thread sees the clock only when
  it resumes, so a run is given:
  - the reading at loop entry;
  - the reading at each later grant of the continue-event (`grants`).

  With no grant left, the thread stays blocked.
- **Script code** is replaced by oracles. For each iteration (`IterEnv`) they
  say:
  - which events the domain enqueued before the drain;
  - whether the `KeyDown`/`KeyUp` handlers of the i-th drained event throw;
  - whether the `Tick` handlers throw;
  - the last value the handlers assign to `Interval`, if any (`newInterval`).
- **`ScriptDomain::ExecutingScript`** is a parameter of `Wait`. Inside `MainLoop` it is the script itself.

Files:

- `wrappers.dfy`: `Option`.
- `seq_facts.dfy`: small facts about sequences and parity.
- `events.dfy`: key events, actions, and the projections of a trace onto the
  dispatched key events (`Raised`) and the rendezvous operations (`Signals`).
- `viewport_keys.dfy`: key bindings, `HandleViewportInput`'s routing and
  `HandleViewportDraw`.
- `script_model.dfy`: the script record, the constructor, the `Interval`
  setter and the `View` accessor.
- `waiting.dfy`: `Abort`, `Wait` and `Yield`.
- `scheduler.dfy`: the drain, one iteration, and `MainLoop`.

## Model

| member | source | states |
|---|---|---|
| ScriptModel.Initial | source/core/Script.cpp:30 | A new script has interval 0, is not running, has an empty queue and no viewport, and satisfies the subscription invariant `Valid` |
| ScriptModel.SetInterval | source/core/Script.cpp:71-79 | The stored interval is never negative: a negative value is stored as 0, any other value as given; nothing else changes and `Valid` is preserved |
| ScriptModel.SetIntervalKeepsOnlyNonNegative | source/core/Script.cpp:73-78 | The setter stores a value unchanged exactly when it is non-negative |
| ScriptModel.SetIntervalIdempotent | source/core/Script.cpp:71-79 | Writing back the interval just read changes nothing |
| ScriptModel.View | source/core/Script.cpp:37-48 | The accessor always returns the script's viewport. The first access builds it and appends exactly the draw handler to the Tick list and the input handler to the KeyUp list; later accesses change nothing. No other part of the script changes, and `Valid` is preserved |
| ScriptModel.ViewIsMemoized | source/core/Script.cpp:39-47 | A second access returns the same viewport and leaves the script as the first access left it |
| ScriptModel.ViewportReactsOnce | source/core/Script.cpp:157-169 | In a valid script, when no subscriber throws, Tick draws the viewport exactly once and a KeyUp is routed exactly once when the viewport exists; without it, and for KeyDown always, the viewport is not touched |
| ScriptModel.ViewWiresHandlersOnce | source/core/Script.cpp:37-48 | After the first access of the viewport, a Tick draws it once and a released key is routed once, however often the accessor is called |
| ViewportKeys.Route | source/core/Script.cpp:163-168 | A routed operation is one whose key is the released key, and no operation earlier in the if-chain has that key; nothing is routed exactly when the key is none of the six |
| ViewportKeys.RouteInvertsBinding | source/core/Script.cpp:163-168 | With six distinct keys, routing inverts the binding: a key triggers an operation exactly when it is that operation's key |
| ViewportKeys.HandleViewportInput | source/core/Script.cpp:161-169 | A released key performs at most one viewport operation, and performs one exactly when it is bound. That operation is bound to the key, and no operation tested earlier in the if-chain is bound to it |
| ViewportKeys.HandleViewportDraw | source/core/Script.cpp:157-160 | The draw handler makes exactly one viewport call, a draw, and routes no input |
| Events.Raise | source/core/Script.cpp:125-132 | A dequeued event flagged key-down raises `KeyDown`, one flagged key-up raises `KeyUp`, and either carries the event's arguments |
| Events.RaiseRoundTrip | source/core/Script.cpp:125-132 | Raising a dequeued event and reading the trace back yields that event with its key-down/key-up flag |
| Events.RaiseAllRoundTrip | source/core/Script.cpp:121-132 | Raising a sequence of events dispatches exactly that sequence, in order, with no rendezvous operation |
| Waiting.Abort | source/core/Script.cpp:81-86 | Abort sets the wait-event first and then makes exactly one abort request, and never blocks on the continue-event |
| Waiting.Handshaking | source/core/Script.cpp:98-103 | The do-while always makes at least one handshake. Every grant before the last one read below the deadline. On return the last grant read at or above the deadline; with grants exhausted the thread is still blocked |
| Waiting.Wait | source/core/Script.cpp:87-104 | The wait fails exactly when no script is executing or the executing one is not running, and then touches neither event. Otherwise it returns at the first grant whose reading is at least `now + ms` |
| Waiting.WaitSignalsAlternate | source/core/Script.cpp:98-103 | The rendezvous operations of a wait alternate strictly, starting with a set of the wait-event, two per handshake, and no key event is dispatched |
| Waiting.Yield | source/core/Script.cpp:105-108 | Yield fails exactly outside a running script, touching neither event. Otherwise it hands the step back at least once and returns at the first grant that does not read earlier than the entry reading; it stays blocked only when every grant reads earlier, after handing the step back once per grant and once more |
| Waiting.YieldIsOneHandshake | source/core/Script.cpp:105-108 | Yield inside a running script, on a clock that does not run backwards, makes exactly one handshake and returns at the next grant; outside a script it fails |
| Waiting.ElapsedWaitIsOneHandshake | source/core/Script.cpp:96-103 | A wait whose deadline has already passed still makes one handshake, because the loop is a do-while |
| Events.AlternationIsStrict | source/core/Script.cpp:98-103 | The recursive alternation predicate holds exactly when no rendezvous operation follows another of its own kind |
| Scheduler.Drain | source/core/Script.cpp:121-139 | The drain consumes the whole queue when no handler throws. Otherwise it stops right after the first event whose handler throws, and every handler before that one succeeded |
| Scheduler.FirstFaultIsWhereDrainStops | source/core/Script.cpp:121-139 | If the first throwing handler belongs to the k-th event, the drain consumes exactly k+1 events and reports the fault |
| Scheduler.NoFaultDrainsAll | source/core/Script.cpp:121-139 | If no handler throws, the drain consumes every event and reports nothing |
| Scheduler.DrainProjections | source/core/Script.cpp:121-133 | A drain dispatches exactly the consumed prefix of the queue, in order, and performs no rendezvous operation |
| Scheduler.AfterTick | source/core/Script.cpp:141-154 | After Tick: a Tick fault aborts without waiting, and a Wait outside a running script escapes the loop. Otherwise the iteration goes on exactly as `Wait(Interval)` does: it continues at the grant where the wait returns (the first reading at or past `now + interval`), with the grants after it left, and stays pending exactly when the wait is still blocked |
| Scheduler.Iteration | source/core/Script.cpp:116-155 | An iteration changes only the script's queue and, when its handlers assign `Interval`, the interval, which then goes through the setter; a script satisfying `Valid` still satisfies it afterwards, so the interval stays non-negative. It aborts exactly when Tick throws. A continuing iteration resumes no earlier than `now` plus the interval the handlers left, and consumes grants |
| Scheduler.IterationKeepsFifo | source/core/Script.cpp:118-139 | The events an iteration dispatches, followed by those still queued, are the queue plus the new arrivals: none is lost, duplicated or reordered |
| Scheduler.IterationCounts | source/core/Script.cpp:118-155 | An iteration raises Tick once. It reports a non-fatal fault exactly when its drain faulted. It reports a fatal fault and requests an abort exactly when Tick threw |
| Scheduler.IterationSignals | source/core/Script.cpp:141-154 | An iteration's rendezvous operations alternate from a set of the wait-event, and their number is odd exactly when the iteration aborted |
| Scheduler.HandlerFaultStopsDraining | source/core/Script.cpp:134-138 | After a fault on the k-th event, events 0..k are dispatched in order, events after k stay queued in order, and one non-fatal report is made |
| Scheduler.HandlerFaultThenTick | source/core/Script.cpp:134-143 | The non-fatal report comes right after the faulting event, and the one Tick right after the report: a handler fault does not skip Tick |
| Scheduler.DrainWithoutFault | source/core/Script.cpp:121-139 | With no handler fault, every event is dispatched in order, the queue ends empty and no fault is reported |
| Scheduler.TickFaultAborts | source/core/Script.cpp:145-151 | A Tick fault ends the iteration as aborted, with exactly one fatal report, one abort request and one Tick |
| Scheduler.TickFaultEndsIteration | source/core/Script.cpp:141-151 | An iteration whose Tick threw ends with Tick, the fatal report, the set of the wait-event and the abort request, and never blocks on the continue-event |
| Scheduler.NegativeIntervalYields | source/core/Script.cpp:71-79 | After `Interval` is set to a negative value, before the iteration or by one of its handlers, the iteration's wait behaves like Yield and resumes at the next grant |
| Scheduler.Loop | source/core/Script.cpp:116-155 | The run ends as Exited, with no iteration and an empty trace, exactly when the script is not running. A run ends early only through an aborted or still-blocked iteration. Only the script's queue and interval change, and a run that starts from a script satisfying `Valid` ends in one (so the interval stays non-negative) |
| Scheduler.LoopAbortsAtFirstTickFault | source/core/Script.cpp:141-151 | A run aborts exactly at its first iteration whose Tick threw; a run that did not abort had no Tick fault |
| Scheduler.LoopCounts | source/core/Script.cpp:116-155 | Over a run, Tick is raised once per iteration. A fatal report and an abort request occur once if the run aborted and never otherwise |
| Scheduler.LoopSignals | source/core/Script.cpp:116-155 | Over a run, the rendezvous operations alternate strictly from a set of the wait-event, and their number is odd exactly when the run aborted |
| Scheduler.LoopKeepsFifo | source/core/Script.cpp:116-155 | Over a run, the events dispatched, followed by those still queued, are the initial queue plus all arrivals, in order |
| Scheduler.AbortEndsLoop | source/core/Script.cpp:145-151 | A run that aborted ends with Tick, the fatal report, the set of the wait-event and the abort request |
| Scheduler.MainLoop | source/core/Script.cpp:110-156 | Main loop starts by blocking on the continue-event. With no grant it never starts; otherwise it exits at once exactly when the script is not running, and an exited run has run no iteration, done nothing after the initial block and left the script unchanged. Only the script's queue and interval change, and `Valid` is preserved |
| Scheduler.MainLoopAlternates | source/core/Script.cpp:110-156 | Over the whole main loop, blocks on the continue-event and sets of the wait-event alternate strictly, starting with the initial block. The script therefore never takes two grants without signalling in between |

## Left out

- `Script::Settings::get` (Script.cpp:49-66) is left out: it derives a path and loads a file, which is I/O.
- Threads are not modelled. Neither are the blocking semantics of `AutoResetEvent` or the lock-free `ConcurrentQueue`. The script thread's view is a trace, and the domain's side appears only as grants and arrivals.
- The domain can clear `_running` while the loop runs (through `ScriptDomain::AbortScript`). The model holds the flag fixed for the length of a run. `Loop` and `MainLoop` therefore describe a run during which the domain does not stop the script.
- `HandleUnhandledException` and `ScriptDomain::AbortScript` are not part of this model. Their calls appear only as trace actions (`FaultReported`, `AbortRequested`).
- Which subscriber of a multicast event threw is not modelled. The oracle says only whether raising the event threw.
- Viewport internals (`Draw`, `HandleActivate`, `HandleBack`, `HandleChangeItem`, `HandleChangeSelection`) are recorded as calls, not modelled.
- The default values of the six menu keys are declared in the script's header, which is not part of this model. The bindings are therefore a parameter of `Initial`.
- `DateTime` arithmetic is modelled on unbounded naturals, so an overflow of `DateTime::Now + ms` for huge `ms` is not modelled. The same goes for the 32-bit width of `int ms`.
- The (empty) destructor `Script::~Script` and the filename and domain lookups of the constructor are not modelled.
- Scheduler.Iteration: the clock does not advance while the queue drains and Tick runs. `Wait` measures its interval from the reading at the start of the iteration, not from the later moment `Wait` actually reads `DateTime::Now` (Script.cpp:154). A continuing iteration is therefore promised `now + interval` as a lower bound on its resumption reading, which is weaker than the source.
- Scheduler.Iteration: script handlers affect the script only through the last value they assign to `Interval`. The model assumes they never access `View`, so no subscriber is added partway through a run. It also assumes they never call `Wait`, `Yield` or `Abort` themselves, so the only grants an iteration uses are those of the `Wait` after Tick.
- Inside `MainLoop` the domain's executing script is taken to be the script itself. A `Wait` that reads another script's running flag or sets another script's wait-event (Script.cpp:89-100) is not modelled.
- Scheduler.Loop: holds under the same assumption about handlers as `Scheduler.Iteration`. "Only the queue and the interval change" describes a run whose handlers do not first access `View`.
- Scheduler.Loop: models a bounded prefix of the run, at most one iteration per `IterEnv` given. The loop itself runs until the domain stops it.

## Notes

`_running` is a `bool` that starts `false` (Script.cpp:30). The model holds
it as a `bool` too.

`MainLoop` calls `Wait(_interval)` unconditionally (Script.cpp:154). `Wait`
throws `InvalidOperationException` when the executing script is not running
(Script.cpp:89-94). Such an iteration ends with the outcome `Escaped`,
meaning the exception leaves the loop.

=== FILE: events.dfy ===
/**
  Keyboard events, the trace of observable actions a script thread performs,
  and the projection of a trace onto the two rendezvous signals.

  The real scheduler synchronises two threads through a pair of auto-reset
  events. Here only the order in which the script thread operates on them is
  recorded: setting the wait-event ("my step is done") and blocking on the
  continue-event ("wait for the driver's next grant").
 */
module Events {
  import opened SeqFacts

  /** A key code (the value of a .NET `Keys` enumeration member). */
  type KeyCode = int

  /** The payload of a key event; only the key code matters to the core. */
  datatype KeyArgs = KeyArgs(code: KeyCode)

  /** One queued keyboard event: the flag says key-down (true) or key-up (false). */
  datatype KeyEvent = KeyEvent(down: bool, args: KeyArgs)

  /** Everything the script thread does that another party can observe. */
  datatype Action =
    | WaitEventSet                 // the wait-event is set: the driver may proceed
    | ContinueAwaited              // the thread blocks on the continue-event
    | KeyDownRaised(args: KeyArgs) // the KeyDown event is raised
    | KeyUpRaised(args: KeyArgs)   // the KeyUp event is raised
    | TickRaised                   // the Tick event is raised
    | FaultReported(fatal: bool)   // an exception is handed to the unhandled-exception handler
    | AbortRequested               // the domain is asked to abort this script

  /** The event raised for one dequeued keyboard event. */
  function Raise(ev: KeyEvent): (a: Action)
    ensures a.KeyDownRaised? <==> ev.down
    ensures a.KeyUpRaised? <==> !ev.down
    ensures (a.KeyDownRaised? || a.KeyUpRaised?) && a.args == ev.args
  {
    if ev.down then KeyDownRaised(ev.args) else KeyUpRaised(ev.args)
  }

  /** The keyboard event an action dispatches, if it is a KeyDown or KeyUp. */
  function Dispatched(a: Action): seq<KeyEvent>
  {
    match a
    case KeyDownRaised(args) => [KeyEvent(true, args)]
    case KeyUpRaised(args) => [KeyEvent(false, args)]
    case _ => []
  }

  /** The keyboard events a trace has dispatched, in dispatch order. */
  function Raised(t: seq<Action>): seq<KeyEvent>
  {
    if |t| == 0 then [] else Dispatched(t[0]) + Raised(t[1..])
  }

  lemma {:induction false} RaisedAppend(a: seq<Action>, b: seq<Action>)
    ensures Raised(a + b) == Raised(a) + Raised(b)
    decreases |a|
  {
    if |a| == 0 {
      assert a + b == b;
    } else {
      assert (a + b)[1..] == a[1..] + b;
      RaisedAppend(a[1..], b);
    }
  }

  /** Raising an event and reading it back out of the trace gives the event. */
  lemma RaiseRoundTrip(ev: KeyEvent)
    ensures Raised([Raise(ev)]) == [ev]
  {
    assert [Raise(ev)][1..] == [];
  }

  /** The two rendezvous operations of the script thread. */
  datatype Signal = SetWait | AwaitContinue

  function Flip(g: Signal): Signal
  {
    if g == SetWait then AwaitContinue else SetWait
  }

  /** The rendezvous operation an action performs, if it is one. */
  function SignalOf(a: Action): seq<Signal>
  {
    match a
    case WaitEventSet => [SetWait]
    case ContinueAwaited => [AwaitContinue]
    case _ => []
  }

  /** The rendezvous operations of a trace, in order. */
  function Signals(t: seq<Action>): seq<Signal>
  {
    if |t| == 0 then [] else SignalOf(t[0]) + Signals(t[1..])
  }

  lemma {:induction false} SignalsAppend(a: seq<Action>, b: seq<Action>)
    ensures Signals(a + b) == Signals(a) + Signals(b)
    decreases |a|
  {
    if |a| == 0 {
      assert a + b == b;
    } else {
      assert (a + b)[1..] == a[1..] + b;
      SignalsAppend(a[1..], b);
    }
  }

  /** A trace without rendezvous signals touches neither event. */
  lemma {:induction false} NoSignalNoRendezvous(t: seq<Action>)
    requires Signals(t) == []
    ensures WaitEventSet !in t && ContinueAwaited !in t
    decreases |t|
  {
    if |t| > 0 {
      assert Signals(t) == SignalOf(t[0]) + Signals(t[1..]);
      NoSignalNoRendezvous(t[1..]);
      assert t == [t[0]] + t[1..];
    }
  }

  /** `sig` starts with `first` and then alternates between the two signals. */
  predicate AlternatesFrom(sig: seq<Signal>, first: Signal)
    decreases |sig|
  {
    |sig| == 0 || (sig[0] == first && AlternatesFrom(sig[1..], Flip(first)))
  }

  /** Two alternating runs join into one when the second picks up where the first left off. */
  lemma {:induction false} AlternatesAppend(x: seq<Signal>, y: seq<Signal>, f: Signal)
    requires AlternatesFrom(x, f)
    requires AlternatesFrom(y, if |x| % 2 == 0 then f else Flip(f))
    ensures AlternatesFrom(x + y, f)
    decreases |x|
  {
    if |x| == 0 {
      assert x + y == y;
    } else {
      assert (x + y)[1..] == x[1..] + y;
      assert Flip(Flip(f)) == f;
      AlternatesAppend(x[1..], y, Flip(f));
    }
  }

  /**
    Alternation, stated recursively above, is exactly "no signal follows
    itself": with only two signals, each is followed by the other.
   */
  lemma {:induction false} AlternationIsStrict(sig: seq<Signal>)
    requires |sig| > 0
    ensures AlternatesFrom(sig, sig[0]) <==> forall i :: 0 <= i < |sig| - 1 ==> sig[i] != sig[i + 1]
    decreases |sig|
  {
    if |sig| > 1 {
      AlternationIsStrict(sig[1..]);
      assert forall i :: 0 <= i < |sig[1..]| ==> sig[1..][i] == sig[i + 1];
      assert sig[1] != sig[0] <==> sig[1] == Flip(sig[0]);
    }
  }

  /**
    `n` complete handshakes: each sets the wait-event and then blocks on the
    continue-event.
   */
  function Handshakes(n: nat): (t: seq<Action>)
    ensures |t| == 2 * n
    ensures forall i :: 0 <= i < |t| ==> t[i] == (if i % 2 == 0 then WaitEventSet else ContinueAwaited)
  {
    if n == 0 then [] else [WaitEventSet, ContinueAwaited] + Handshakes(n - 1)
  }

  /** The events raised, in order, for a sequence of dequeued keyboard events. */
  function RaiseAll(p: seq<KeyEvent>): (t: seq<Action>)
    ensures |t| == |p|
    ensures forall i :: 0 <= i < |p| ==> t[i] == Raise(p[i])
  {
    if |p| == 0 then [] else [Raise(p[0])] + RaiseAll(p[1..])
  }

  /** Dispatching a sequence of events and reading them back out of the trace gives the sequence. */
  lemma {:induction false} RaiseAllRoundTrip(p: seq<KeyEvent>)
    ensures Raised(RaiseAll(p)) == p
    ensures Signals(RaiseAll(p)) == []
    decreases |p|
  {
    if |p| > 0 {
      var t := RaiseAll(p);
      assert t[1..] == RaiseAll(p[1..]);
      RaiseAllRoundTrip(p[1..]);
      assert p == [p[0]] + p[1..];
    }
  }

  /** Dispatching key events neither ticks, reports nor aborts. */
  lemma RaiseAllOnlyRaises(p: seq<KeyEvent>)
    ensures multiset(RaiseAll(p))[TickRaised] == 0
    ensures multiset(RaiseAll(p))[AbortRequested] == 0
    ensures multiset(RaiseAll(p))[FaultReported(true)] == 0
    ensures multiset(RaiseAll(p))[FaultReported(false)] == 0
  {
    var t := RaiseAll(p);
    assert forall i :: 0 <= i < |t| ==> t[i].KeyDownRaised? || t[i].KeyUpRaised?;
    assert TickRaised !in t && AbortRequested !in t;
    assert FaultReported(true) !in t && FaultReported(false) !in t;
  }

  /** A one-action trace dispatches what that action dispatches. */
  lemma RaisedOne(x: Action)
    ensures Raised([x]) == Dispatched(x)
  {
    assert [x][1..] == [];
  }

  /** A one-action trace performs the rendezvous operation of that action. */
  lemma SignalsOne(x: Action)
    ensures Signals([x]) == SignalOf(x)
  {
    assert [x][1..] == [];
  }

  /** A Tick between two parts of a trace dispatches no key event. */
  lemma RaisedTickBetween(a: seq<Action>, b: seq<Action>)
    ensures Raised(a + [TickRaised] + b) == Raised(a) + Raised(b)
  {
    RaisedAppend(a + [TickRaised], b);
    RaisedAppend(a, [TickRaised]);
    RaisedOne(TickRaised);
  }

  /** A Tick between two parts of a trace touches neither rendezvous event. */
  lemma SignalsTickBetween(a: seq<Action>, b: seq<Action>)
    ensures Signals(a + [TickRaised] + b) == Signals(a) + Signals(b)
  {
    SignalsAppend(a + [TickRaised], b);
    SignalsAppend(a, [TickRaised]);
    SignalsOne(TickRaised);
  }

  /** The rendezvous operations of one handshake. */
  lemma OneHandshake()
    ensures Signals([WaitEventSet, ContinueAwaited]) == [SetWait, AwaitContinue]
    ensures Raised([WaitEventSet, ContinueAwaited]) == []
  {
    var pair := [WaitEventSet, ContinueAwaited];
    assert pair[1..] == [ContinueAwaited];
    assert pair[1..][1..] == [];
  }

  /**
    The signals of `n` handshakes alternate from a set of the wait-event, and
    no key event is dispatched in them.
   */
  lemma {:induction false} HandshakesAlternate(n: nat)
    ensures AlternatesFrom(Signals(Handshakes(n)), SetWait)
    ensures |Signals(Handshakes(n))| == 2 * n
    ensures Raised(Handshakes(n)) == []
    decreases n
  {
    if n > 0 {
      var pair := [WaitEventSet, ContinueAwaited];
      var rest := Handshakes(n - 1);
      assert Handshakes(n) == pair + rest;
      HandshakesAlternate(n - 1);
      SignalsAppend(pair, rest);
      RaisedAppend(pair, rest);
      OneHandshake();
      assert AlternatesFrom([SetWait, AwaitContinue], SetWait) by {
        assert [SetWait, AwaitContinue][1..] == [AwaitContinue];
        assert [AwaitContinue][1..] == [];
      }
      AlternatesAppend([SetWait, AwaitContinue], Signals(rest), SetWait);
    }
  }

  /** Handshakes neither tick, report nor abort. */
  lemma HandshakesOnlySignal(n: nat)
    ensures multiset(Handshakes(n))[TickRaised] == 0
    ensures multiset(Handshakes(n))[AbortRequested] == 0
    ensures multiset(Handshakes(n))[FaultReported(true)] == 0
    ensures multiset(Handshakes(n))[FaultReported(false)] == 0
  {
    var t := Handshakes(n);
    assert forall i :: 0 <= i < |t| ==> t[i].WaitEventSet? || t[i].ContinueAwaited?;
    assert TickRaised !in t && AbortRequested !in t;
    assert FaultReported(true) !in t && FaultReported(false) !in t;
  }

  /** Completed handshakes followed by an alternating run alternate. */
  lemma SignalsCompose(x: seq<Action>, y: seq<Action>)
    requires AlternatesFrom(Signals(x), SetWait) && |Signals(x)| % 2 == 0
    requires AlternatesFrom(Signals(y), SetWait)
    ensures AlternatesFrom(Signals(x + y), SetWait)
  {
    var sx, sy := Signals(x), Signals(y);
    SignalsAppend(x, y);
    AlternatesAppend(sx, sy, SetWait);
  }

  /** The rendezvous count of a concatenation is the sum of the parts' counts. */
  lemma SignalCountAppend(x: seq<Action>, y: seq<Action>)
    ensures |Signals(x + y)| == |Signals(x)| + |Signals(y)|
  {
    SignalsAppend(x, y);
  }

  /** After completed handshakes, the parity of the rendezvous count is that of what follows. */
  lemma SignalParityCompose(x: seq<Action>, y: seq<Action>)
    requires |Signals(x)| % 2 == 0
    ensures |Signals(x + y)| % 2 == 1 <==> |Signals(y)| % 2 == 1
  {
    SignalCountAppend(x, y);
    EvenPlus(|Signals(x)|, |Signals(y)|);
  }
}

=== FILE: scheduler.dfy ===
/**
  The script's main loop, one iteration at a time.

  An iteration drains the keyboard-event queue, raises Tick, and then waits
  for the script's interval. Script code is replaced by oracles: whether the
  handlers of the i-th event drained in the iteration throw (`handlerOk`),
  and whether the Tick handlers throw (`tickOk`). Events the driver enqueues
  before an iteration drains are its `arrivals`. The last value the
  iteration's handlers assign to `Interval`, if any, is `newInterval`; the wait
  after Tick reads the interval as they leave it.
 */
module Scheduler {
  import opened Wrappers
  import opened Events
  import opened ScriptModel
  import opened Waiting
  import opened SeqFacts

  datatype IterEnv = IterEnv(arrivals: seq<KeyEvent>, handlerOk: nat -> bool, tickOk: bool, newInterval: Option<int>)

  /** The script as an iteration's handlers leave it: the last assignment to `Interval`, if any, goes through its setter. */
  function Assigned(s: Script, newInterval: Option<int>): Script
  {
    if newInterval.Some? then SetInterval(s, newInterval.value) else s
  }

  /** What draining did: how many events it dequeued, and whether a handler threw. */
  datatype Drained = Drained(consumed: nat, faulted: bool)
  {
    /** The trace of a drain of `q`: the dequeued events raised in order, then the report of a fault. */
    function Trace(q: seq<KeyEvent>): seq<Action>
      requires consumed <= |q|
    {
      RaiseAll(q[..consumed]) + (if faulted then [FaultReported(false)] else [])
    }
  }

  /**
    Drain the queue `q` in FIFO order, raising KeyDown or KeyUp for each
    event; `base` is the position of `q[0]` among this iteration's events.
    The first handler fault stops draining: the faulting event is consumed
    and the rest stay queued.
   */
  function Drain(q: seq<KeyEvent>, ok: nat -> bool, base: nat): (r: Drained)
    ensures r.consumed <= |q|
    ensures !r.faulted ==> r.consumed == |q|
    ensures r.faulted ==> r.consumed >= 1 && !ok(base + r.consumed - 1)
    ensures forall j :: base <= j < base + r.consumed - (if r.faulted then 1 else 0) ==> ok(j)
    decreases |q|
  {
    if |q| == 0 then Drained(0, false)
    else if !ok(base) then Drained(1, true)
    else
      var rest := Drain(q[1..], ok, base + 1);
      Drained(rest.consumed + 1, rest.faulted)
  }

  /**
    A drain dispatches exactly the consumed prefix of the queue, in order,
    and touches neither rendezvous event.
   */
  lemma DrainProjections(q: seq<KeyEvent>, d: Drained)
    requires d.consumed <= |q|
    ensures Raised(d.Trace(q)) == q[..d.consumed]
    ensures Signals(d.Trace(q)) == []
  {
    var raises := RaiseAll(q[..d.consumed]);
    var report: seq<Action> := if d.faulted then [FaultReported(false)] else [];
    RaiseAllRoundTrip(q[..d.consumed]);
    RaisedAppend(raises, report);
    SignalsAppend(raises, report);
    RaisedOne(FaultReported(false));
    SignalsOne(FaultReported(false));
  }

  /** A drain reports at most one fault, as non-fatal, and neither ticks nor aborts. */
  lemma DrainCounts(q: seq<KeyEvent>, d: Drained)
    requires d.consumed <= |q|
    ensures multiset(d.Trace(q))[FaultReported(false)] == (if d.faulted then 1 else 0)
    ensures multiset(d.Trace(q))[FaultReported(true)] == 0
    ensures multiset(d.Trace(q))[TickRaised] == 0
    ensures multiset(d.Trace(q))[AbortRequested] == 0
  {
    var raises := RaiseAll(q[..d.consumed]);
    var report: seq<Action> := if d.faulted then [FaultReported(false)] else [];
    RaiseAllOnlyRaises(q[..d.consumed]);
    assert multiset(d.Trace(q)) == multiset(raises) + multiset(report);
  }

  /** How an iteration ended. */
  datatype Outcome =
    | Continue(now: nat, grants: seq<nat>)  // the wait returned at `now`; `grants` remain
    | Aborted                               // the Tick handlers threw
    | Pending                               // the wait is still blocked on the continue-event
    | Escaped                               // the wait threw out of the main loop

  datatype Step = Step(script: Script, trace: seq<Action>, outcome: Outcome)

  /** The part of an iteration after Tick was raised: its trace and how the iteration ends. */
  datatype Tail = Tail(trace: seq<Action>, outcome: Outcome)

  /** What follows a faulting Tick: the fatal report, then Abort. */
  function FatalTail(): seq<Action>
  {
    [FaultReported(true)] + Abort()
  }

  /** The fatal tail dispatches no key event and sets the wait-event once, without awaiting a grant. */
  lemma FatalTailSignals()
    ensures Raised(FatalTail()) == []
    ensures Signals(FatalTail()) == [SetWait]
    ensures AlternatesFrom(Signals(FatalTail()), SetWait)
  {
    RaisedAppend([FaultReported(true)], Abort());
    RaisedOne(FaultReported(true));
    RaisedAppend([WaitEventSet], [AbortRequested]);
    RaisedOne(WaitEventSet);
    RaisedOne(AbortRequested);
    assert Abort() == [WaitEventSet] + [AbortRequested];
    SignalsAppend([FaultReported(true)], Abort());
    SignalsOne(FaultReported(true));
    assert [SetWait][1..] == [];
  }

  /** The fatal tail reports one fatal fault and requests one abort, and nothing else is counted. */
  lemma FatalTailCounts()
    ensures multiset(FatalTail())[TickRaised] == 0
    ensures multiset(FatalTail())[FaultReported(false)] == 0
    ensures multiset(FatalTail())[FaultReported(true)] == 1
    ensures multiset(FatalTail())[AbortRequested] == 1
  {
    assert FatalTail() == [FaultReported(true), WaitEventSet, AbortRequested];
    assert multiset(FatalTail()) == multiset{FaultReported(true), WaitEventSet, AbortRequested};
  }

  /**
    After Tick: a Tick fault is reported as fatal and the script aborts
    without waiting; otherwise the thread waits for the interval, as the
    executing script.
   */
  function AfterTick(s: Script, tickOk: bool, now: nat, grants: seq<nat>): (t: Tail)
    ensures t.outcome.Aborted? <==> !tickOk
    ensures t.outcome.Escaped? <==> tickOk && !s.running
    ensures t.outcome.Continue? ==>
      && now + s.interval <= t.outcome.now
      && |t.outcome.grants| < |grants|
      && t.outcome.grants == grants[|grants| - |t.outcome.grants|..]
    ensures t.outcome.Continue? ==>
      var w := Wait(Some(s), s.interval, now, grants);
      w.status == Resumed(t.outcome.now) && t.outcome.grants == grants[w.handshakes..]
    ensures t.outcome.Pending? <==> tickOk && Wait(Some(s), s.interval, now, grants).status.Blocked?
  {
    if !tickOk then Tail(FatalTail(), Aborted)
    else
      var w := Wait(Some(s), s.interval, now, grants);
      match w.status
      case IllegalOperation => Tail([], Escaped)
      case Blocked => Tail(w.trace, Pending)
      case Resumed(at) => Tail(w.trace, Continue(at, grants[w.handshakes..]))
  }

  /** After Tick no key event is dispatched and no non-fatal fault is reported; a fatal one comes with one Abort. */
  lemma AfterTickCounts(s: Script, tickOk: bool, now: nat, grants: seq<nat>)
    ensures var t := AfterTick(s, tickOk, now, grants);
      && Raised(t.trace) == []
      && multiset(t.trace)[TickRaised] == 0
      && multiset(t.trace)[FaultReported(false)] == 0
      && multiset(t.trace)[FaultReported(true)] == (if tickOk then 0 else 1)
      && multiset(t.trace)[AbortRequested] == (if tickOk then 0 else 1)
  {
    var t := AfterTick(s, tickOk, now, grants);
    if !tickOk {
      FatalTailSignals();
      FatalTailCounts();
    } else {
      var w := Wait(Some(s), s.interval, now, grants);
      WaitSignalsAlternate(Some(s), s.interval, now, grants);
      HandshakesOnlySignal(w.handshakes);
    }
  }

  /** When Tick did not throw, what follows it is exactly what the wait did. */
  lemma AfterCleanTickWaits(s: Script, now: nat, grants: seq<nat>)
    ensures AfterTick(s, true, now, grants).trace == Wait(Some(s), s.interval, now, grants).trace
  {
  }

  /**
    After Tick the rendezvous operations alternate from a set of the
    wait-event, and end on that set (an odd count) exactly when the script
    aborts.
   */
  lemma AfterTickSignals(s: Script, tickOk: bool, now: nat, grants: seq<nat>)
    ensures var t := AfterTick(s, tickOk, now, grants);
      && AlternatesFrom(Signals(t.trace), SetWait)
      && (|Signals(t.trace)| % 2 == 0 <==> !t.outcome.Aborted?)
  {
    if !tickOk {
      FatalTailSignals();
    } else {
      var w := Wait(Some(s), s.interval, now, grants);
      AfterCleanTickWaits(s, now, grants);
      WaitSignalsAlternate(Some(s), s.interval, now, grants);
      assert |Signals(w.trace)| % 2 == 0;
    }
  }

  /** The events an iteration drains from: the queue as it stands plus the new arrivals. */
  function ToDrain(s: Script, env: IterEnv): seq<KeyEvent>
  {
    s.queue + env.arrivals
  }

  /** The drain of an iteration. */
  function IterationDrain(s: Script, env: IterEnv): (d: Drained)
    ensures d.consumed <= |ToDrain(s, env)|
  {
    Drain(ToDrain(s, env), env.handlerOk, 0)
  }

  /**
    One iteration of the main loop, entered with the clock at `now`: drain
    the queue, raise Tick, then abort or wait for the interval the handlers
    left. Only the queue and the interval of the script change.
   */
  function Iteration(s: Script, env: IterEnv, now: nat, grants: seq<nat>): (r: Step)
    ensures r.script == s.(queue := r.script.queue, interval := r.script.interval)
    ensures Valid(s) ==> Valid(r.script)
    ensures env.newInterval.None? ==> r.script.interval == s.interval
    ensures env.newInterval.Some? ==> r.script.interval == SetInterval(s, env.newInterval.value).interval
    ensures r.outcome.Aborted? <==> !env.tickOk
    ensures r.outcome.Escaped? <==> env.tickOk && !s.running
    ensures r.outcome.Continue? ==>
      && now + r.script.interval <= r.outcome.now
      && |r.outcome.grants| < |grants|
      && r.outcome.grants == grants[|grants| - |r.outcome.grants|..]
  {
    var q := ToDrain(s, env);
    var d := IterationDrain(s, env);
    var s1 := Assigned(s, env.newInterval).(queue := q[d.consumed..]);
    var t := AfterTick(s1, env.tickOk, now, grants);
    Step(s1, d.Trace(q) + [TickRaised] + t.trace, t.outcome)
  }

  /** The parts an iteration is made of. */
  lemma IterationParts(s: Script, env: IterEnv, now: nat, grants: seq<nat>)
    ensures var r := Iteration(s, env, now, grants);
      var q := ToDrain(s, env);
      var d := IterationDrain(s, env);
      var t := AfterTick(r.script, env.tickOk, now, grants);
      && r.script.queue == q[d.consumed..]
      && r.trace == d.Trace(q) + [TickRaised] + t.trace
      && r.outcome == t.outcome
  {
  }

  /** Dispatched events compose: what the drain raised, then nothing, then what stays queued, is the whole queue. */
  lemma DispatchOrder(q: seq<KeyEvent>, c: nat, dt: seq<Action>, tt: seq<Action>)
    requires c <= |q|
    requires Raised(dt) == q[..c] && Raised(tt) == []
    ensures Raised(dt + [TickRaised] + tt) + q[c..] == q
  {
    RaisedTickBetween(dt, tt);
    assert q == q[..c] + q[c..];
  }

  /**
    Nothing is lost or reordered: the events an iteration dispatches,
    followed by what stays queued, are the queue it started with followed by
    the arrivals.
   */
  lemma IterationKeepsFifo(s: Script, env: IterEnv, now: nat, grants: seq<nat>)
    ensures var r := Iteration(s, env, now, grants);
      Raised(r.trace) + r.script.queue == s.queue + env.arrivals
  {
    var r := Iteration(s, env, now, grants);
    var q := ToDrain(s, env);
    var d := IterationDrain(s, env);
    var t := AfterTick(r.script, env.tickOk, now, grants);
    IterationParts(s, env, now, grants);
    DrainProjections(q, d);
    AfterTickCounts(r.script, env.tickOk, now, grants);
    DispatchOrder(q, d.consumed, d.Trace(q), t.trace);
  }

  /** Counts compose around the Tick. */
  lemma CountAround(dt: seq<Action>, tt: seq<Action>, a: Action)
    ensures multiset(dt + [TickRaised] + tt)[a] == multiset(dt)[a] + (if a == TickRaised then 1 else 0) + multiset(tt)[a]
  {
    assert multiset(dt + [TickRaised] + tt) == multiset(dt) + multiset{TickRaised} + multiset(tt);
  }

  /** An iteration raises Tick once, reports a fault per faulting kind at most once, and aborts only on a Tick fault. */
  lemma IterationCounts(s: Script, env: IterEnv, now: nat, grants: seq<nat>)
    ensures var r := Iteration(s, env, now, grants);
      && multiset(r.trace)[TickRaised] == 1
      && multiset(r.trace)[FaultReported(false)] == (if IterationDrain(s, env).faulted then 1 else 0)
      && multiset(r.trace)[FaultReported(true)] == (if env.tickOk then 0 else 1)
      && multiset(r.trace)[AbortRequested] == (if env.tickOk then 0 else 1)
  {
    var r := Iteration(s, env, now, grants);
    var q := ToDrain(s, env);
    var d := IterationDrain(s, env);
    var t := AfterTick(r.script, env.tickOk, now, grants);
    IterationParts(s, env, now, grants);
    DrainCounts(q, d);
    AfterTickCounts(r.script, env.tickOk, now, grants);
    IterationCountsStep(d.Trace(q), t.trace, d.faulted, env.tickOk);
  }

  /** The counts of an iteration's trace from those of its drain and of what follows its Tick. */
  lemma IterationCountsStep(dt: seq<Action>, tt: seq<Action>, faulted: bool, tickOk: bool)
    requires multiset(dt)[TickRaised] == 0 && multiset(tt)[TickRaised] == 0
    requires multiset(dt)[FaultReported(false)] == (if faulted then 1 else 0)
    requires multiset(tt)[FaultReported(false)] == 0
    requires multiset(dt)[FaultReported(true)] == 0 && multiset(dt)[AbortRequested] == 0
    requires multiset(tt)[FaultReported(true)] == (if tickOk then 0 else 1)
    requires multiset(tt)[AbortRequested] == (if tickOk then 0 else 1)
    ensures multiset(dt + [TickRaised] + tt)[TickRaised] == 1
    ensures multiset(dt + [TickRaised] + tt)[FaultReported(false)] == (if faulted then 1 else 0)
    ensures multiset(dt + [TickRaised] + tt)[FaultReported(true)] == (if tickOk then 0 else 1)
    ensures multiset(dt + [TickRaised] + tt)[AbortRequested] == (if tickOk then 0 else 1)
  {
    CountAround(dt, tt, TickRaised);
    CountAround(dt, tt, FaultReported(false));
    CountAround(dt, tt, FaultReported(true));
    CountAround(dt, tt, AbortRequested);
  }

  /** Signals compose around a Tick when the part before it has none. */
  lemma SignalsAround(dt: seq<Action>, tt: seq<Action>)
    requires Signals(dt) == []
    ensures Signals(dt + [TickRaised] + tt) == Signals(tt)
  {
    SignalsTickBetween(dt, tt);
  }

  /** The rendezvous operations of an iteration are those after its Tick. */
  lemma IterationSignals(s: Script, env: IterEnv, now: nat, grants: seq<nat>)
    ensures var r := Iteration(s, env, now, grants);
      && AlternatesFrom(Signals(r.trace), SetWait)
      && (|Signals(r.trace)| % 2 == 0 <==> !r.outcome.Aborted?)
  {
    var r := Iteration(s, env, now, grants);
    var q := ToDrain(s, env);
    var d := IterationDrain(s, env);
    var t := AfterTick(r.script, env.tickOk, now, grants);
    IterationParts(s, env, now, grants);
    DrainProjections(q, d);
    AfterTickSignals(r.script, env.tickOk, now, grants);
    SignalsAround(d.Trace(q), t.trace);
  }

  /** The drain stops exactly at the first faulting event: that event is consumed, and nothing after it. */
  lemma {:induction false} FirstFaultIsWhereDrainStops(q: seq<KeyEvent>, ok: nat -> bool, base: nat, k: nat)
    requires base <= k < base + |q| && !ok(k)
    requires forall j :: base <= j < k ==> ok(j)
    ensures Drain(q, ok, base) == Drained(k - base + 1, true)
    decreases |q|
  {
    if k > base {
      assert ok(base);
      FirstFaultIsWhereDrainStops(q[1..], ok, base + 1, k);
    }
  }

  /** A drain in which no handler throws dequeues the whole queue. */
  lemma {:induction false} NoFaultDrainsAll(q: seq<KeyEvent>, ok: nat -> bool, base: nat)
    requires forall j :: base <= j < base + |q| ==> ok(j)
    ensures Drain(q, ok, base) == Drained(|q|, false)
    decreases |q|
  {
    if |q| > 0 {
      assert ok(base);
      NoFaultDrainsAll(q[1..], ok, base + 1);
    }
  }

  /** What an iteration whose drain faulted on the k-th event dispatches, for any part after the Tick that dispatches nothing. */
  lemma FaultedDrainRaised(q: seq<KeyEvent>, k: nat, tt: seq<Action>)
    requires k < |q|
    requires Raised(tt) == []
    ensures Raised(Drained(k + 1, true).Trace(q) + [TickRaised] + tt) == q[..k + 1]
  {
    var d := Drained(k + 1, true);
    DrainProjections(q, d);
    RaisedTickBetween(d.Trace(q), tt);
  }

  /** Where the report and the Tick stand after a drain that faulted on the k-th event. */
  lemma FaultedDrainOrder(q: seq<KeyEvent>, k: nat, tt: seq<Action>)
    requires k < |q|
    ensures var tr := Drained(k + 1, true).Trace(q) + [TickRaised] + tt;
      && tr[k + 1] == FaultReported(false)
      && tr[k + 2] == TickRaised
  {
    var p := RaiseAll(q[..k + 1]);
    assert |p| == k + 1;
    assert Drained(k + 1, true).Trace(q) + [TickRaised] + tt == p + [FaultReported(false), TickRaised] + tt;
  }

  /** The reports and Ticks of an iteration whose drain faulted, for any part after the Tick that has neither. */
  lemma FaultedDrainCounts(q: seq<KeyEvent>, k: nat, tt: seq<Action>)
    requires k < |q|
    requires multiset(tt)[FaultReported(false)] == 0 && multiset(tt)[TickRaised] == 0
    ensures var tr := Drained(k + 1, true).Trace(q) + [TickRaised] + tt;
      && multiset(tr)[FaultReported(false)] == 1
      && multiset(tr)[TickRaised] == 1
  {
    var d := Drained(k + 1, true);
    DrainCounts(q, d);
    CountAround(d.Trace(q), tt, FaultReported(false));
    CountAround(d.Trace(q), tt, TickRaised);
  }

  /**
    A handler fault on the k-th event of an iteration (the first to fault):
    the events up to and including the faulting one are dispatched in order,
    the later ones stay queued in order, and exactly one non-fatal report is
    made.
   */
  lemma HandlerFaultStopsDraining(s: Script, env: IterEnv, now: nat, grants: seq<nat>, k: nat)
    requires k < |s.queue + env.arrivals|
    requires !env.handlerOk(k)
    requires forall j :: 0 <= j < k ==> env.handlerOk(j)
    ensures var r := Iteration(s, env, now, grants);
      var q := s.queue + env.arrivals;
      && Raised(r.trace) == q[..k + 1]
      && r.script.queue == q[k + 1..]
      && multiset(r.trace)[FaultReported(false)] == 1
  {
    var r := Iteration(s, env, now, grants);
    var q := ToDrain(s, env);
    var t := AfterTick(r.script, env.tickOk, now, grants);
    FirstFaultIsWhereDrainStops(q, env.handlerOk, 0, k);
    assert IterationDrain(s, env) == Drained(k + 1, true);
    IterationParts(s, env, now, grants);
    assert r.script.queue == q[k + 1..];
    assert r.trace == Drained(k + 1, true).Trace(q) + [TickRaised] + t.trace;
    AfterTickCounts(r.script, env.tickOk, now, grants);
    FaultedDrainRaised(q, k, t.trace);
    FaultedDrainCounts(q, k, t.trace);
  }

  /**
    After a handler fault on the k-th event, the non-fatal report comes right
    after that event is raised, and the iteration's one Tick right after the
    report: a handler fault does not skip Tick.
   */
  lemma HandlerFaultThenTick(s: Script, env: IterEnv, now: nat, grants: seq<nat>, k: nat)
    requires k < |s.queue + env.arrivals|
    requires !env.handlerOk(k)
    requires forall j :: 0 <= j < k ==> env.handlerOk(j)
    ensures var r := Iteration(s, env, now, grants);
      && r.trace[k + 1] == FaultReported(false)
      && r.trace[k + 2] == TickRaised
      && multiset(r.trace)[TickRaised] == 1
  {
    var r := Iteration(s, env, now, grants);
    var q := ToDrain(s, env);
    var t := AfterTick(r.script, env.tickOk, now, grants);
    FirstFaultIsWhereDrainStops(q, env.handlerOk, 0, k);
    assert IterationDrain(s, env) == Drained(k + 1, true);
    IterationParts(s, env, now, grants);
    assert r.trace == Drained(k + 1, true).Trace(q) + [TickRaised] + t.trace;
    AfterTickCounts(r.script, env.tickOk, now, grants);
    FaultedDrainOrder(q, k, t.trace);
    FaultedDrainCounts(q, k, t.trace);
  }

  /** With no handler fault, every event is dispatched in order and nothing stays queued. */
  lemma DrainWithoutFault(s: Script, env: IterEnv, now: nat, grants: seq<nat>)
    requires forall j :: 0 <= j < |s.queue + env.arrivals| ==> env.handlerOk(j)
    ensures var r := Iteration(s, env, now, grants);
      && Raised(r.trace) == s.queue + env.arrivals
      && r.script.queue == []
      && multiset(r.trace)[FaultReported(false)] == 0
  {
    NoFaultDrainsAll(ToDrain(s, env), env.handlerOk, 0);
    IterationParts(s, env, now, grants);
    IterationCounts(s, env, now, grants);
    IterationKeepsFifo(s, env, now, grants);
  }

  /** A trace that ends with Tick and then the three given actions ends with those four. */
  lemma EndsWithTickThen(dt: seq<Action>, f: seq<Action>)
    requires f == [FaultReported(true), WaitEventSet, AbortRequested]
    ensures var tr := dt + [TickRaised] + f;
      tr[|tr| - 4..] == [TickRaised, FaultReported(true), WaitEventSet, AbortRequested]
  {
    var x := dt + [TickRaised];
    var tr := x + f;
    SuffixOfAppend(x, f, 3);
    assert tr[|tr| - 4] == TickRaised;
    assert tr[|tr| - 4..] == [tr[|tr| - 4]] + tr[|tr| - 3..];
  }

  /** Tick and a tail that never awaits a grant add no block on the continue-event. */
  lemma NoAwaitAroundTick(dt: seq<Action>, f: seq<Action>)
    requires ContinueAwaited !in dt && ContinueAwaited !in f
    ensures multiset(dt + [TickRaised] + f)[ContinueAwaited] == 0
  {
    CountAppend(dt + [TickRaised], f, ContinueAwaited);
    CountAppend(dt, [TickRaised], ContinueAwaited);
  }

  /** The shape of a trace that ends in a Tick fault. */
  lemma TickFaultShape(dt: seq<Action>)
    requires ContinueAwaited !in dt
    ensures var tr := dt + [TickRaised] + FatalTail();
      && tr[|tr| - 4..] == [TickRaised, FaultReported(true), WaitEventSet, AbortRequested]
      && multiset(tr)[ContinueAwaited] == 0
  {
    assert FatalTail() == [FaultReported(true), WaitEventSet, AbortRequested];
    EndsWithTickThen(dt, FatalTail());
    NoAwaitAroundTick(dt, FatalTail());
  }

  /**
    A Tick fault aborts the iteration with exactly one fatal report and one
    abort request, after the iteration's one Tick.
   */
  lemma TickFaultAborts(s: Script, env: IterEnv, now: nat, grants: seq<nat>)
    requires !env.tickOk
    ensures var r := Iteration(s, env, now, grants);
      && r.outcome.Aborted?
      && multiset(r.trace)[FaultReported(true)] == 1
      && multiset(r.trace)[AbortRequested] == 1
      && multiset(r.trace)[TickRaised] == 1
  {
    IterationCounts(s, env, now, grants);
  }

  /**
    An iteration whose Tick threw ends with the tick, its fatal report, the
    wait-event set and the abort request, and the thread never waits for a
    grant in it.
   */
  lemma TickFaultEndsIteration(s: Script, env: IterEnv, now: nat, grants: seq<nat>)
    requires !env.tickOk
    ensures var r := Iteration(s, env, now, grants);
      && |r.trace| >= 4
      && r.trace[|r.trace| - 4..] == [TickRaised, FaultReported(true), WaitEventSet, AbortRequested]
      && ContinueAwaited !in r.trace
  {
    var r := Iteration(s, env, now, grants);
    var q := ToDrain(s, env);
    var d := IterationDrain(s, env);
    IterationParts(s, env, now, grants);
    assert r.trace == d.Trace(q) + [TickRaised] + FatalTail();
    DrainProjections(q, d);
    NoSignalNoRendezvous(d.Trace(q));
    TickFaultShape(d.Trace(q));
  }

  /**
    A negative interval waits like Yield: on a clock that does not run
    backwards, the iteration resumes at the first grant, whether the value
    was assigned before the iteration or by one of its handlers.
   */
  lemma NegativeIntervalYields(s: Script, env: IterEnv, now: nat, grants: seq<nat>, value: int)
    requires value < 0 && s.running && env.tickOk
    requires |grants| > 0 && now <= grants[0]
    ensures Iteration(SetInterval(s, value), env.(newInterval := None), now, grants).outcome == Continue(grants[0], grants[1..])
    ensures Iteration(s, env.(newInterval := Some(value)), now, grants).outcome == Continue(grants[0], grants[1..])
  {
    var before := env.(newInterval := None);
    var r := Iteration(SetInterval(s, value), before, now, grants);
    IterationParts(SetInterval(s, value), before, now, grants);
    ElapsedWaitIsOneHandshake(Some(r.script), r.script.interval, now, grants);
    var during := env.(newInterval := Some(value));
    var r' := Iteration(s, during, now, grants);
    IterationParts(s, during, now, grants);
    ElapsedWaitIsOneHandshake(Some(r'.script), r'.script.interval, now, grants);
  }

  /** The result of running the loop over a number of iterations. */
  datatype Ending =
    | Exited              // the loop condition found the script not running
    | Unfinished          // every iteration given was run, and the loop goes on
    | Stopped(why: Outcome)  // an iteration ended the run (never with Continue)
  {
    /** The run ended because a Tick threw. */
    predicate Aborts()
    {
      Stopped? && why.Aborted?
    }
  }

  datatype Run = Run(script: Script, trace: seq<Action>, iterations: nat, end: Ending)

  /** The events the driver enqueues over a sequence of iterations, in order. */
  function Arrivals(envs: seq<IterEnv>): seq<KeyEvent>
  {
    if |envs| == 0 then [] else envs[0].arrivals + Arrivals(envs[1..])
  }

  /**
    The `while (running)` loop, run for at most |envs| iterations. A run ends
    early only through an iteration that does not continue; a run that stops
    on Abort stops exactly at the first iteration whose Tick threw.
   */
  function Loop(s: Script, envs: seq<IterEnv>, now: nat, grants: seq<nat>): (r: Run)
    ensures r.iterations <= |envs|
    ensures r.script == s.(queue := r.script.queue, interval := r.script.interval)
    ensures Valid(s) ==> Valid(r.script)
    ensures r.end.Exited? <==> !s.running
    ensures r.end.Exited? ==> r.iterations == 0 && r.trace == []
    ensures r.end.Unfinished? ==> r.iterations == |envs|
    ensures r.end.Stopped? ==> r.iterations >= 1 && !r.end.why.Continue? && !r.end.why.Escaped?
    decreases |envs|
  {
    if !s.running then Run(s, [], 0, Exited)
    else if |envs| == 0 then Run(s, [], 0, Unfinished)
    else
      var st := Iteration(s, envs[0], now, grants);
      if st.outcome.Continue? then
        var r := Loop(st.script, envs[1..], st.outcome.now, st.outcome.grants);
        Run(r.script, st.trace + r.trace, r.iterations + 1, r.end)
      else Run(st.script, st.trace, 1, Stopped(st.outcome))
  }

  /**
    The main loop: block until the domain first grants the continue-event,
    then loop. With no grant at all the thread never starts.
   */
  function MainLoop(s: Script, envs: seq<IterEnv>, grants: seq<nat>): (r: Run)
    ensures |r.trace| >= 1 && r.trace[0] == ContinueAwaited
    ensures r.script == s.(queue := r.script.queue, interval := r.script.interval)
    ensures Valid(s) ==> Valid(r.script)
    ensures |grants| == 0 ==> r.iterations == 0 && r.end.Stopped? && r.end.why.Pending?
    ensures |grants| > 0 ==> (r.end.Exited? <==> !s.running)
    ensures r.end.Exited? ==> r.iterations == 0 && r.trace == [ContinueAwaited] && r.script == s
  {
    if |grants| == 0 then Run(s, [ContinueAwaited], 0, Stopped(Pending))
    else
      var r := Loop(s, envs, grants[0], grants[1..]);
      r.(trace := [ContinueAwaited] + r.trace)
  }

  /** How a loop that ran an iteration and went on is made up. */
  lemma LoopContinues(s: Script, envs: seq<IterEnv>, now: nat, grants: seq<nat>)
    requires s.running && |envs| > 0
    requires Iteration(s, envs[0], now, grants).outcome.Continue?
    ensures var st := Iteration(s, envs[0], now, grants);
      var r := Loop(s, envs, now, grants);
      var rr := Loop(st.script, envs[1..], st.outcome.now, st.outcome.grants);
      && r.trace == st.trace + rr.trace
      && r.iterations == rr.iterations + 1
      && r.end == rr.end
      && r.script == rr.script
  {
  }

  /** How a loop whose first iteration did not go on is made up. */
  lemma LoopStopsAtFirst(s: Script, envs: seq<IterEnv>, now: nat, grants: seq<nat>)
    requires s.running && |envs| > 0
    requires !Iteration(s, envs[0], now, grants).outcome.Continue?
    ensures var st := Iteration(s, envs[0], now, grants);
      var r := Loop(s, envs, now, grants);
      && r.trace == st.trace
      && r.iterations == 1
      && r.end == Stopped(st.outcome)
      && r.script == st.script
  {
  }

  /**
    `n` iterations over `envs` stop, if `aborts`, exactly at the first one
    whose Tick threw, and otherwise had no Tick fault.
   */
  ghost predicate AbortsAtFirstTickFault(envs: seq<IterEnv>, n: nat, aborts: bool)
  {
    && n <= |envs|
    && (aborts ==> n >= 1 && !envs[n - 1].tickOk)
    && forall j :: 0 <= j < n ==> envs[j].tickOk || (aborts && j == n - 1)
  }

  /** A clean Tick followed by iterations that abort, if at all, at their first Tick fault: so do they all. */
  lemma FirstTickFaultStep(envs: seq<IterEnv>, n: nat, aborts: bool)
    requires 0 < |envs| && envs[0].tickOk
    requires AbortsAtFirstTickFault(envs[1..], n, aborts)
    ensures AbortsAtFirstTickFault(envs, n + 1, aborts)
  {
    assert forall j :: 1 <= j < n + 1 ==> envs[j] == envs[1..][j - 1];
  }

  /** The inductive core of LoopAbortsAtFirstTickFault. */
  lemma {:induction false} LoopStopsAtFirstTickFault(s: Script, envs: seq<IterEnv>, now: nat, grants: seq<nat>)
    ensures var r := Loop(s, envs, now, grants);
      AbortsAtFirstTickFault(envs, r.iterations, r.end.Aborts())
    decreases |envs|
  {
    if s.running && |envs| > 0 {
      var st := Iteration(s, envs[0], now, grants);
      if st.outcome.Continue? {
        var rr := Loop(st.script, envs[1..], st.outcome.now, st.outcome.grants);
        LoopStopsAtFirstTickFault(st.script, envs[1..], st.outcome.now, st.outcome.grants);
        LoopContinues(s, envs, now, grants);
        FirstTickFaultStep(envs, rr.iterations, rr.end.Aborts());
      } else {
        LoopStopsAtFirst(s, envs, now, grants);
      }
    }
  }

  /**
    A run aborts exactly at its first iteration whose Tick threw: every
    earlier iteration ticked cleanly, and a run that did not abort had no
    Tick fault at all.
   */
  lemma LoopAbortsAtFirstTickFault(s: Script, envs: seq<IterEnv>, now: nat, grants: seq<nat>)
    ensures var r := Loop(s, envs, now, grants);
      && (r.end.Aborts() ==> !envs[r.iterations - 1].tickOk)
      && forall j :: 0 <= j < r.iterations ==> envs[j].tickOk || (r.end.Aborts() && j == r.iterations - 1)
  {
    LoopStopsAtFirstTickFault(s, envs, now, grants);
  }

  /**
    Over a whole run, Tick is raised once per iteration, and a fatal report
    and an abort request happen once if the run was aborted and never
    otherwise.
   */
  lemma {:induction false} LoopCounts(s: Script, envs: seq<IterEnv>, now: nat, grants: seq<nat>)
    ensures var r := Loop(s, envs, now, grants);
      && multiset(r.trace)[TickRaised] == r.iterations
      && multiset(r.trace)[FaultReported(true)] == (if r.end.Aborts() then 1 else 0)
      && multiset(r.trace)[AbortRequested] == (if r.end.Aborts() then 1 else 0)
    decreases |envs|
  {
    if s.running && |envs| > 0 {
      var st := Iteration(s, envs[0], now, grants);
      IterationCounts(s, envs[0], now, grants);
      if st.outcome.Continue? {
        var rr := Loop(st.script, envs[1..], st.outcome.now, st.outcome.grants);
        LoopCounts(st.script, envs[1..], st.outcome.now, st.outcome.grants);
        LoopContinues(s, envs, now, grants);
        RunCountsStep(st.trace, rr.trace, rr.iterations, rr.end.Aborts());
      } else {
        LoopStopsAtFirst(s, envs, now, grants);
      }
    }
  }

  /** The counts of a run that went on after a clean iteration `a` with the rest of the run `b`. */
  lemma RunCountsStep(a: seq<Action>, b: seq<Action>, n: nat, aborts: bool)
    requires multiset(a)[TickRaised] == 1 && multiset(a)[FaultReported(true)] == 0 && multiset(a)[AbortRequested] == 0
    requires multiset(b)[TickRaised] == n
    requires multiset(b)[FaultReported(true)] == (if aborts then 1 else 0)
    requires multiset(b)[AbortRequested] == (if aborts then 1 else 0)
    ensures multiset(a + b)[TickRaised] == n + 1
    ensures multiset(a + b)[FaultReported(true)] == (if aborts then 1 else 0)
    ensures multiset(a + b)[AbortRequested] == (if aborts then 1 else 0)
  {
    CountAppend(a, b, TickRaised);
    CountAppend(a, b, FaultReported(true));
    CountAppend(a, b, AbortRequested);
  }

  /**
    Over a whole run, the rendezvous operations alternate strictly from a set
    of the wait-event, with an odd count exactly when the run ended in Abort.
   */
  lemma {:induction false} LoopSignals(s: Script, envs: seq<IterEnv>, now: nat, grants: seq<nat>)
    ensures var r := Loop(s, envs, now, grants);
      && AlternatesFrom(Signals(r.trace), SetWait)
      && (|Signals(r.trace)| % 2 == 1 <==> r.end.Aborts())
    decreases |envs|
  {
    if s.running && |envs| > 0 {
      var st := Iteration(s, envs[0], now, grants);
      IterationSignals(s, envs[0], now, grants);
      var r := Loop(s, envs, now, grants);
      if st.outcome.Continue? {
        var rr := Loop(st.script, envs[1..], st.outcome.now, st.outcome.grants);
        LoopSignals(st.script, envs[1..], st.outcome.now, st.outcome.grants);
        LoopContinues(s, envs, now, grants);
        SignalsCompose(st.trace, rr.trace);
        SignalParityCompose(st.trace, rr.trace);
        assert r.end.Aborts() == rr.end.Aborts();
      } else {
        LoopStopsAtFirst(s, envs, now, grants);
      }
    } else {
      assert Loop(s, envs, now, grants).trace == [];
    }
  }

  /** Arrivals over a number of iterations: the first iteration's, then the rest's. */
  lemma ArrivalsStep(envs: seq<IterEnv>, n: nat)
    requires 1 <= n <= |envs|
    ensures Arrivals(envs[..n]) == envs[0].arrivals + Arrivals(envs[1..][..n - 1])
  {
    assert envs[..n][1..] == envs[1..][..n - 1];
  }

  /** FIFO composes: the events of one iteration followed by those of the rest of the run. */
  lemma FifoCompose(x: seq<Action>, y: seq<Action>, q0: seq<KeyEvent>, a0: seq<KeyEvent>, q1: seq<KeyEvent>, ar: seq<KeyEvent>, q2: seq<KeyEvent>)
    requires Raised(x) + q1 == q0 + a0
    requires Raised(y) + q2 == q1 + ar
    ensures Raised(x + y) + q2 == q0 + (a0 + ar)
  {
    RaisedAppend(x, y);
    calc {
      Raised(x + y) + q2;
      Raised(x) + (Raised(y) + q2);
      (Raised(x) + q1) + ar;
      q0 + (a0 + ar);
    }
  }

  /** One iteration that keeps FIFO order, followed by a run that does, keeps it. */
  lemma FifoStep(q0: seq<KeyEvent>, envs: seq<IterEnv>, st: Step, rr: Run, r: Run)
    requires 0 < |envs| && rr.iterations < |envs|
    requires Raised(st.trace) + st.script.queue == q0 + envs[0].arrivals
    requires Raised(rr.trace) + rr.script.queue == st.script.queue + Arrivals(envs[1..][..rr.iterations])
    requires r.trace == st.trace + rr.trace && r.iterations == rr.iterations + 1 && r.script == rr.script
    ensures Raised(r.trace) + r.script.queue == q0 + Arrivals(envs[..r.iterations])
  {
    ArrivalsStep(envs, r.iterations);
    FifoCompose(st.trace, rr.trace, q0, envs[0].arrivals, st.script.queue, Arrivals(envs[1..][..rr.iterations]), rr.script.queue);
  }

  /** Over a whole run, the events dispatched followed by those still queued are the queue plus all arrivals, in order. */
  lemma {:induction false} LoopKeepsFifo(s: Script, envs: seq<IterEnv>, now: nat, grants: seq<nat>)
    ensures var r := Loop(s, envs, now, grants);
      Raised(r.trace) + r.script.queue == s.queue + Arrivals(envs[..r.iterations])
    decreases |envs|
  {
    var r := Loop(s, envs, now, grants);
    if s.running && |envs| > 0 {
      var st := Iteration(s, envs[0], now, grants);
      IterationKeepsFifo(s, envs[0], now, grants);
      if st.outcome.Continue? {
        var rr := Loop(st.script, envs[1..], st.outcome.now, st.outcome.grants);
        LoopKeepsFifo(st.script, envs[1..], st.outcome.now, st.outcome.grants);
        LoopContinues(s, envs, now, grants);
        FifoStep(s.queue, envs, st, rr, r);
      } else {
        LoopStopsAtFirst(s, envs, now, grants);
        ArrivalsStep(envs, 1);
        assert Arrivals(envs[1..][..0]) == [];
      }
    } else {
      assert r.iterations == 0;
      assert envs[..0] == [];
    }
  }

  /**
    The whole main loop: its rendezvous operations alternate strictly,
    starting with the block on the continue-event that admits the script, so
    the script never sees two grants without having signalled in between.
   */
  lemma MainLoopAlternates(s: Script, envs: seq<IterEnv>, grants: seq<nat>)
    ensures AlternatesFrom(Signals(MainLoop(s, envs, grants).trace), AwaitContinue)
  {
    var r := MainLoop(s, envs, grants);
    SignalsAppend([ContinueAwaited], r.trace[1..]);
    assert r.trace == [ContinueAwaited] + r.trace[1..];
    assert [ContinueAwaited][1..] == [];
    if |grants| > 0 {
      LoopSignals(s, envs, grants[0], grants[1..]);
    } else {
      assert r.trace[1..] == [];
    }
  }

  /** The trace ends with a faulting Tick, its fatal report, the wait-event set and the abort request. */
  ghost predicate EndsInAbort(t: seq<Action>)
  {
    |t| >= 4 && t[|t| - 4..] == [TickRaised, FaultReported(true), WaitEventSet, AbortRequested]
  }

  /** A trace that ends in Abort still does after something is put in front of it. */
  lemma AbortTailStep(a: seq<Action>, b: seq<Action>)
    requires EndsInAbort(b)
    ensures EndsInAbort(a + b)
  {
    SuffixOfAppend(a, b, 4);
  }

  /** The inductive core of AbortEndsLoop. */
  lemma {:induction false} LoopEndsInAbort(s: Script, envs: seq<IterEnv>, now: nat, grants: seq<nat>)
    ensures var r := Loop(s, envs, now, grants);
      r.end.Aborts() ==> EndsInAbort(r.trace)
    decreases |envs|
  {
    if s.running && |envs| > 0 {
      var st := Iteration(s, envs[0], now, grants);
      if st.outcome.Continue? {
        var rr := Loop(st.script, envs[1..], st.outcome.now, st.outcome.grants);
        LoopEndsInAbort(st.script, envs[1..], st.outcome.now, st.outcome.grants);
        LoopContinues(s, envs, now, grants);
        if rr.end.Aborts() {
          AbortTailStep(st.trace, rr.trace);
        }
      } else {
        LoopStopsAtFirst(s, envs, now, grants);
        if !envs[0].tickOk {
          TickFaultEndsIteration(s, envs[0], now, grants);
        }
      }
    }
  }

  /**
    A run that ends in Abort ends with the faulting tick, its fatal report,
    the wait-event set and the abort request.
   */
  lemma AbortEndsLoop(s: Script, envs: seq<IterEnv>, now: nat, grants: seq<nat>)
    requires Loop(s, envs, now, grants).end.Aborts()
    ensures var r := Loop(s, envs, now, grants);
      && |r.trace| >= 4
      && r.trace[|r.trace| - 4..] == [TickRaised, FaultReported(true), WaitEventSet, AbortRequested]
  {
    LoopEndsInAbort(s, envs, now, grants);
  }
}

=== FILE: script_model.dfy ===
/**
  The state of one script as the scheduler sees it: its tick interval, its
  running flag, its keyboard-event queue, its key bindings, its lazily built
  viewport, and the subscriber lists of its Tick, KeyDown and KeyUp events.
 */
module ScriptModel {
  import opened Wrappers
  import opened Events
  import opened ViewportKeys

  /** A subscriber of one of the script's events. */
  datatype Handler =
    | ViewportDraw          // the script's own viewport draw handler (on Tick)
    | ViewportInput         // the script's own viewport input handler (on KeyUp)
    | UserHandler(id: nat)  // a handler the script author subscribed

  /** A viewport instance; `instance` stands for its object identity. */
  datatype Viewport = Viewport(instance: nat)

  datatype Script = Script(
    interval: int,
    running: bool,
    queue: seq<KeyEvent>,
    keys: KeyBindings,
    viewport: Option<Viewport>,
    tickHandlers: seq<Handler>,
    keyDownHandlers: seq<Handler>,
    keyUpHandlers: seq<Handler>)

  /** How many times each viewport handler is subscribed: once it exists, exactly once. */
  function Wired(s: Script): nat
  {
    if s.viewport.Some? then 1 else 0
  }

  /**
    The invariant every reachable script keeps: a non-negative interval, and
    the viewport's two handlers subscribed exactly once each, to their own
    events only, exactly when the viewport exists.
   */
  ghost predicate Valid(s: Script)
  {
    && s.interval >= 0
    && multiset(s.tickHandlers)[ViewportDraw] == Wired(s)
    && multiset(s.keyUpHandlers)[ViewportInput] == Wired(s)
    && ViewportInput !in s.tickHandlers
    && ViewportDraw !in s.keyUpHandlers
    && ViewportDraw !in s.keyDownHandlers
    && ViewportInput !in s.keyDownHandlers
  }

  /** A freshly constructed script: interval 0, not running, nothing queued, no viewport. */
  function Initial(keys: KeyBindings): (s: Script)
    ensures Valid(s)
    ensures s.interval == 0 && !s.running && s.queue == [] && s.viewport.None?
    ensures s.keys == keys
  {
    Script(0, false, [], keys, None, [], [], [])
  }

  /** The interval setter: a negative value is stored as 0. */
  function SetInterval(s: Script, value: int): (r: Script)
    ensures r.interval >= 0
    ensures value >= 0 ==> r.interval == value
    ensures value < 0 ==> r.interval == 0
    ensures r == s.(interval := r.interval)
    ensures Valid(s) ==> Valid(r)
  {
    var v := if value < 0 then 0 else value;
    s.(interval := v)
  }

  /** Exactly the non-negative values are stored unchanged. */
  lemma SetIntervalKeepsOnlyNonNegative(s: Script, value: int)
    ensures SetInterval(s, value).interval == value <==> value >= 0
  {
  }

  /** Setting the interval to the value just read back changes nothing. */
  lemma SetIntervalIdempotent(s: Script, value: int)
    ensures var r := SetInterval(s, value); SetInterval(r, r.interval) == r
  {
  }

  datatype ViewResult = ViewResult(script: Script, viewport: Viewport)

  /**
    The lazy viewport accessor. The first access builds the viewport (its
    identity is `newId`) and subscribes the draw handler to Tick and the input
    handler to KeyUp; later accesses return the existing viewport unchanged.
   */
  function View(s: Script, newId: nat): (r: ViewResult)
    ensures r.script.viewport == Some(r.viewport)
    ensures s.viewport.Some? ==> r.script == s && r.viewport == s.viewport.value
    ensures s.viewport.None? ==> r.viewport.instance == newId
    ensures s.viewport.None? ==>
      && r.script.tickHandlers == s.tickHandlers + [ViewportDraw]
      && r.script.keyUpHandlers == s.keyUpHandlers + [ViewportInput]
    ensures s.tickHandlers <= r.script.tickHandlers
    ensures s.keyUpHandlers <= r.script.keyUpHandlers
    ensures r.script == s.(viewport := r.script.viewport, tickHandlers := r.script.tickHandlers,
                           keyUpHandlers := r.script.keyUpHandlers)
    ensures Valid(s) ==> Valid(r.script)
  {
    if s.viewport.None? then
      var v := Viewport(newId);
      ViewResult(s.(viewport := Some(v),
                    tickHandlers := s.tickHandlers + [ViewportDraw],
                    keyUpHandlers := s.keyUpHandlers + [ViewportInput]), v)
    else
      ViewResult(s, s.viewport.value)
  }

  /** A second access returns the same viewport and subscribes nothing more. */
  lemma ViewIsMemoized(s: Script, id1: nat, id2: nat)
    ensures var r := View(s, id1); View(r.script, id2) == r
  {
  }

  /** The viewport operations raising Tick performs through these subscribers. */
  function TickCalls(hs: seq<Handler>): seq<ViewportCall>
  {
    if |hs| == 0 then []
    else (if hs[0] == ViewportDraw then HandleViewportDraw() else []) + TickCalls(hs[1..])
  }

  /** The viewport operations raising KeyUp (or KeyDown) with `e` performs through these subscribers. */
  function KeyCalls(hs: seq<Handler>, b: KeyBindings, e: KeyArgs): seq<ViewportCall>
  {
    if |hs| == 0 then []
    else (if hs[0] == ViewportInput then HandleViewportInput(b, e) else []) + KeyCalls(hs[1..], b, e)
  }

  lemma {:induction false} TickCallsByCount(hs: seq<Handler>)
    requires multiset(hs)[ViewportDraw] <= 1
    ensures TickCalls(hs) == if multiset(hs)[ViewportDraw] == 1 then [Draw] else []
    decreases |hs|
  {
    if |hs| > 0 {
      assert hs == [hs[0]] + hs[1..];
      assert multiset(hs) == multiset{hs[0]} + multiset(hs[1..]);
      TickCallsByCount(hs[1..]);
    }
  }

  lemma {:induction false} KeyCallsByCount(hs: seq<Handler>, b: KeyBindings, e: KeyArgs)
    requires multiset(hs)[ViewportInput] <= 1
    ensures KeyCalls(hs, b, e) == if multiset(hs)[ViewportInput] == 1 then HandleViewportInput(b, e) else []
    decreases |hs|
  {
    if |hs| > 0 {
      assert hs == [hs[0]] + hs[1..];
      assert multiset(hs) == multiset{hs[0]} + multiset(hs[1..]);
      KeyCallsByCount(hs[1..], b, e);
    }
  }

  /**
    In every valid script the viewport reacts exactly once per Tick (it is
    drawn) and exactly once per KeyUp (the routed operation), and not at all
    to KeyDown; without a viewport nothing reacts.
   */
  lemma ViewportReactsOnce(s: Script, e: KeyArgs)
    requires Valid(s)
    ensures TickCalls(s.tickHandlers) == if s.viewport.Some? then [Draw] else []
    ensures KeyCalls(s.keyUpHandlers, s.keys, e) == if s.viewport.Some? then HandleViewportInput(s.keys, e) else []
    ensures KeyCalls(s.keyDownHandlers, s.keys, e) == []
  {
    TickCallsByCount(s.tickHandlers);
    KeyCallsByCount(s.keyUpHandlers, s.keys, e);
    KeyCallsByCount(s.keyDownHandlers, s.keys, e);
  }

  /** After the first access of the viewport, a tick draws it once and a released key is routed once. */
  lemma ViewWiresHandlersOnce(s: Script, newId: nat, e: KeyArgs)
    requires Valid(s)
    ensures var t := View(s, newId).script;
      && TickCalls(t.tickHandlers) == [Draw]
      && KeyCalls(t.keyUpHandlers, t.keys, e) == HandleViewportInput(s.keys, e)
  {
    ViewportReactsOnce(View(s, newId).script, e);
  }
}

=== FILE: seq_facts.dfy ===
/**
  Small facts about sequences and parity that the proofs about traces and
  runs lean on.
 */
module SeqFacts {
  /** The last `n` elements of a concatenation whose second part has at least `n` are that part's. */
  lemma SuffixOfAppend<T>(x: seq<T>, y: seq<T>, n: nat)
    requires n <= |y|
    ensures (x + y)[|x + y| - n..] == y[|y| - n..]
  {
    var z := x + y;
    assert z[|x|..] == y;
    assert z[|z| - n..] == z[|x|..][|y| - n..];
  }

  /** Adding an even number keeps parity. */
  lemma EvenPlus(n: nat, m: nat)
    requires n % 2 == 0
    ensures (n + m) % 2 == 1 <==> m % 2 == 1
  {
    var k := n / 2;
    assert n == 2 * k;
  }

  /** Occurrences in a concatenation add up. */
  lemma CountAppend<T>(x: seq<T>, y: seq<T>, a: T)
    ensures multiset(x + y)[a] == multiset(x)[a] + multiset(y)[a]
  {
    assert multiset(x + y) == multiset(x) + multiset(y);
  }
}

=== FILE: viewport_keys.dfy ===
/**
  Routing of a released key to a viewport (menu) operation. The six keys are
  members of the script, so each script can rebind them; routing tries them in
  a fixed priority order and performs at most one operation.
 */
module ViewportKeys {
  import opened Wrappers
  import opened Events

  /** The script's activate, back, left, right, up and down keys. */
  datatype KeyBindings = KeyBindings(
    activate: KeyCode, back: KeyCode, left: KeyCode, right: KeyCode, up: KeyCode, down: KeyCode)

  /** The viewport operations a key can trigger. */
  datatype ViewportAction =
    | Activate
    | Back
    | ChangeItem(forward: bool)       // left (false) / right (true)
    | ChangeSelection(forward: bool)  // up (false) / down (true)

  /** The key bound to an action. */
  function BoundKey(b: KeyBindings, a: ViewportAction): KeyCode
  {
    match a
    case Activate => b.activate
    case Back => b.back
    case ChangeItem(forward) => if forward then b.right else b.left
    case ChangeSelection(forward) => if forward then b.down else b.up
  }

  /** The position of an action's key in the order routing tests the keys. */
  function Priority(a: ViewportAction): nat
  {
    match a
    case Activate => 0
    case Back => 1
    case ChangeItem(forward) => if forward then 3 else 2
    case ChangeSelection(forward) => if forward then 5 else 4
  }

  /** The key is one of the six the menu reacts to. */
  predicate IsBound(b: KeyBindings, k: KeyCode)
  {
    k in {b.activate, b.back, b.left, b.right, b.up, b.down}
  }

  /**
    The viewport operation a released key triggers, if any: the action whose
    key it is, preferring the earliest in priority order when one key is
    bound to several actions.
   */
  function Route(b: KeyBindings, k: KeyCode): (r: Option<ViewportAction>)
    ensures r.Some? ==> BoundKey(b, r.value) == k
    ensures r.Some? ==> forall a :: Priority(a) < Priority(r.value) ==> BoundKey(b, a) != k
    ensures r.None? <==> !IsBound(b, k)
  {
    if k == b.activate then Some(Activate)
    else if k == b.back then Some(Back)
    else if k == b.left then Some(ChangeItem(false))
    else if k == b.right then Some(ChangeItem(true))
    else if k == b.up then Some(ChangeSelection(false))
    else if k == b.down then Some(ChangeSelection(true))
    else None
  }

  /** No key is bound to two actions. */
  ghost predicate Distinct(b: KeyBindings)
  {
    forall a1, a2 :: BoundKey(b, a1) == BoundKey(b, a2) ==> a1 == a2
  }

  /**
    With distinct bindings, routing is the inverse of the binding: each of the
    six keys triggers its own action, and an action is triggered only by its key.
   */
  lemma RouteInvertsBinding(b: KeyBindings, k: KeyCode, a: ViewportAction)
    requires Distinct(b)
    ensures Route(b, k) == Some(a) <==> BoundKey(b, a) == k
  {
    if BoundKey(b, a) == k {
      var r := Route(b, k);
      assert IsBound(b, k) by {
        match a
        case Activate =>
        case Back =>
        case ChangeItem(f) =>
        case ChangeSelection(f) =>
      }
      assert BoundKey(b, r.value) == BoundKey(b, a);
    }
  }

  /** Each viewport operation a script's menu performs. */
  datatype ViewportCall = Draw | Input(action: ViewportAction)

  /** The draw handler: the tick draws the viewport. */
  function HandleViewportDraw(): (calls: seq<ViewportCall>)
    ensures |calls| == 1 && calls[0].Draw?
  {
    [Draw]
  }

  /** The input handler: a released key performs the routed operation, if any. */
  function HandleViewportInput(b: KeyBindings, e: KeyArgs): (calls: seq<ViewportCall>)
    ensures |calls| <= 1
    ensures |calls| == 1 <==> IsBound(b, e.code)
    ensures forall i :: 0 <= i < |calls| ==> calls[i].Input? && BoundKey(b, calls[i].action) == e.code
    ensures forall i, a :: 0 <= i < |calls| && Priority(a) < Priority(calls[i].action) ==> BoundKey(b, a) != e.code
  {
    match Route(b, e.code)
    case Some(a) => [Input(a)]
    case None => []
  }
}

=== FILE: waiting.dfy ===
/**
  The blocking primitives a script calls on its own thread: Wait, Yield and
  Abort.

  Time is an abstract clock that the script observes only when it resumes:
  `now` is the reading when Wait is entered and `grants[i]` is the reading
  when the thread resumes from the i-th grant of the continue-event by the
  driver. When the grants run out the thread stays blocked on the
  continue-event, which is reported as `Blocked`.
 */
module Waiting {
  import opened Wrappers
  import opened Events
  import opened ScriptModel

  /**
    Abort: set the wait-event, so that a driver blocked waiting for this
    script is released, and then ask the domain to abort the script.
   */
  function Abort(): (t: seq<Action>)
    ensures Signals(t) == [SetWait]
    ensures multiset(t)[AbortRequested] == 1
    ensures |t| > 0 && t[|t| - 1] == AbortRequested
    ensures t[0] == WaitEventSet
  {
    [WaitEventSet, AbortRequested]
  }

  datatype WaitStatus =
    | IllegalOperation  // called outside the main loop of a running script
    | Resumed(at: nat)  // returned; `at` is the clock reading it returned at
    | Blocked           // still blocked on the continue-event (no further grant)

  datatype WaitOutcome = WaitOutcome(status: WaitStatus, handshakes: nat, trace: seq<Action>)

  /**
    The do-while loop of Wait: hand the step back to the driver and block
    until the next grant, until the clock has reached `deadline`.
   */
  function Handshaking(deadline: int, grants: seq<nat>): (r: WaitOutcome)
    ensures !r.status.IllegalOperation?
    ensures 1 <= r.handshakes <= |grants| + 1
    ensures r.trace == Handshakes(r.handshakes)
    ensures forall i :: 0 <= i < r.handshakes - 1 ==> grants[i] < deadline
    ensures r.status.Resumed? ==>
      r.handshakes <= |grants| && r.status.at == grants[r.handshakes - 1] && deadline <= r.status.at
    ensures r.status.Blocked? ==> r.handshakes == |grants| + 1
    decreases |grants|
  {
    if |grants| == 0 then WaitOutcome(Blocked, 1, [WaitEventSet, ContinueAwaited])
    else if grants[0] < deadline then
      var rest := Handshaking(deadline, grants[1..]);
      WaitOutcome(rest.status, rest.handshakes + 1, [WaitEventSet, ContinueAwaited] + rest.trace)
    else WaitOutcome(Resumed(grants[0]), 1, [WaitEventSet, ContinueAwaited])
  }

  /**
    Wait(ms), called with `executing` as the domain's executing script.
    Outside a running script it fails before touching either event. Otherwise
    it performs at least one handshake and returns at the first grant whose
    clock reading is at least `now + ms`.
   */
  function Wait(executing: Option<Script>, ms: int, now: nat, grants: seq<nat>): (r: WaitOutcome)
    ensures r.status.IllegalOperation? <==> executing.None? || !executing.value.running
    ensures r.status.IllegalOperation? ==> r.handshakes == 0 && r.trace == []
    ensures !r.status.IllegalOperation? ==>
      1 <= r.handshakes <= |grants| + 1 && r.trace == Handshakes(r.handshakes)
    ensures forall i :: 0 <= i < r.handshakes - 1 ==> grants[i] < now + ms
    ensures r.status.Resumed? ==>
      r.handshakes <= |grants| && r.status.at == grants[r.handshakes - 1] && now + ms <= r.status.at
    ensures r.status.Blocked? ==> r.handshakes == |grants| + 1
  {
    if executing.None? || !executing.value.running then WaitOutcome(IllegalOperation, 0, [])
    else Handshaking(now + ms, grants)
  }

  /**
    Yield is Wait(0): outside a running script it fails; otherwise it hands
    the step back at least once and returns at the first grant that does not
    read earlier than `now`.
   */
  function Yield(executing: Option<Script>, now: nat, grants: seq<nat>): (r: WaitOutcome)
    ensures r.status.IllegalOperation? <==> executing.None? || !executing.value.running
    ensures r.status.IllegalOperation? ==> r.handshakes == 0 && r.trace == []
    ensures !r.status.IllegalOperation? ==> 1 <= r.handshakes <= |grants| + 1 && r.trace == Handshakes(r.handshakes)
    ensures forall i :: 0 <= i < r.handshakes - 1 ==> grants[i] < now
    ensures r.status.Resumed? ==>
      r.handshakes <= |grants| && r.status.at == grants[r.handshakes - 1] && now <= r.status.at
    ensures r.status.Blocked? ==> r.handshakes == |grants| + 1
  {
    Wait(executing, 0, now, grants)
  }

  /**
    Every legal Wait's rendezvous operations alternate strictly, starting
    with a set of the wait-event and ending with a block on the
    continue-event, and it dispatches no key event.
   */
  lemma WaitSignalsAlternate(executing: Option<Script>, ms: int, now: nat, grants: seq<nat>)
    ensures var r := Wait(executing, ms, now, grants);
      && AlternatesFrom(Signals(r.trace), SetWait)
      && |Signals(r.trace)| == 2 * r.handshakes
      && Raised(r.trace) == []
  {
    var r := Wait(executing, ms, now, grants);
    HandshakesAlternate(r.handshakes);
  }

  /**
    On a clock that does not run backwards, Wait with a deadline already
    reached (in particular Yield) performs exactly one handshake and returns
    at the first grant.
   */
  lemma ElapsedWaitIsOneHandshake(executing: Option<Script>, ms: int, now: nat, grants: seq<nat>)
    requires executing.Some? && executing.value.running
    requires ms <= 0
    requires |grants| > 0 && now <= grants[0]
    ensures Wait(executing, ms, now, grants) == WaitOutcome(Resumed(grants[0]), 1, [WaitEventSet, ContinueAwaited])
  {
  }

  lemma YieldIsOneHandshake(executing: Option<Script>, now: nat, grants: seq<nat>)
    requires executing.Some? && executing.value.running
    requires |grants| > 0 && now <= grants[0]
    ensures Yield(executing, now, grants) == WaitOutcome(Resumed(grants[0]), 1, [WaitEventSet, ContinueAwaited])
    ensures Yield(None, now, grants).status == IllegalOperation
  {
  }
}

=== FILE: wrappers.dfy ===
/** The optional-value datatype used in place of a null reference. */
module Wrappers {

  datatype Option<+T> = None | Some(value: T)
}
